=== FILE: README.md ===
# Road Rover telemetry core in Dafny

This project models the small amount of real logic in the Road Rover
pothole-reporting web app. The rest of the app is map rendering and UI.
The modelled logic is:

- **The motion sampler** (`accelerometer.js`). A collection flag, the
  registration of the `devicemotion` handler, a buffer of samples and two
  timestamps. Each motion event appends one sample, tagged `[lng, lat]` with
  the averaged location when one exists. When more than 1000 ms have passed
  since the last send, the whole buffer goes to the sender. Independently,
  when more than 10000 ms have passed since the last clear, the buffer is
  emptied. `HandleMotion` is a pure step function. It takes wall-clock time
  and the averaged location as inputs and returns the batch to send as an
  output. `SamplerTrace` runs it over any sequence of button presses and
  motion events. For every run, whether the prompts are answered as the
  code does or as corrected, it proves the pacing of sends and clears and
  exactly which samples the buffer and each batch hold. That the handler
  is never registered while collection is off holds only for the
  corrected prompts (see Findings).
- **The API decisions** (`frontend/api.js`):
  - turning server potholes `[lon, lat]` and their severity into heatmap
    points `[lat, lon, intensity]`;
  - the logged-in guard and the reply handling when a batch is sent;
  - the severity whitelist of the pothole sound;
  - the email merge after a profile save.
- **The sender the sampler calls**: `accelerometer.js` imports
  `postAccelerometerData` from the root `api.js`. That version posts every
  batch without a user check (`LegacyApi`).
- **The colour classifiers** of `app.js`.
- **The bounded on-screen log** of `frontend/ui-logger.js`.

Every network reply, the audio playback outcome, the permission prompt's
outcome, the current user, the clock and the averaged location are
parameters. Requests, log lines, sounds and user updates are results.

Observations on the code as written:

- Switching collection on does not reset `lastSentTime` or
  `lastClearTime`. Both are set once, when the module loads (`Sampler.Init`),
  so the first event after a long idle period both sends and clears.
- Sending never empties the buffer. Only the clear path does. A batch is
  therefore sent again, grown, on each later send until the next clear.
- In a browser without `DeviceMotionEvent`, switching on throws at the `typeof DeviceMotionEvent.requestPermission` test after the flag was set. Collection then reads as on with nothing registered (`Sampler.MissingMotionApiCollectsNothing`).
- If the motion-permission prompt itself fails, the `.catch` only logs the
  error. Collection then reads as on while no handler is registered
  (`Sampler.FailedPromptCollectsNothing`).
- The permission prompt is answered later than the press that issues it. A
  pending prompt is part of the sampler state, and its answer is an event
  of its own (see Findings).
- One pothole without a `coordinates` field makes `data.map` throw. The
  whole heatmap then comes back empty.
- Request paths are written relative to the API base URL. `frontend/api.js`
  imports that URL from `frontend/config.js`, which is not part of this
  model. The root `api.js` defines it itself (api.js:5). The URL's value
  decides no branch, so neither model carries it.

## Model

| member | source | states |
|---|---|---|
| `Colors.ConditionColor` | app.js:59-66 | good, fair and poor map to blue, yellow and red. The result is gray exactly when the condition is not one of those three. |
| `Colors.ConditionLegend` | app.js:59-66 | A known condition is recovered from its colour. An unknown one maps to gray, which stands for no condition. |
| `Colors.ConditionColorsDistinct` | app.js:60-63 | Two different known conditions never share a colour. |
| `Colors.PotholeColor` | app.js:110-117 | large, medium and small map to red, orange and yellow. The result is gray exactly when the severity is not one of those three. |
| `Colors.SeverityLegend` | app.js:110-117 | A known severity is recovered from its marker colour. An unknown one reads as none. |
| `Colors.SeverityColorsDistinct` | app.js:111-114 | Two different known severities never share a colour. |
| `UiLogger.EffectiveKind` | frontend/ui-logger.js:22 | A call without a type logs with type `info`. |
| `UiLogger.KindColor` | frontend/ui-logger.js:31 | The colour is red iff the type is `error`, yellow iff `warn`, and white iff neither. |
| `UiLogger.AppendAndTrim` | frontend/ui-logger.js:33-39 | The append-then-remove-first loop keeps the newest 50 of the old entries plus the new one. The new entry is last, the result is a suffix of old plus new, and nothing is removed below 50. |
| `UiLogger.LogToUI` | frontend/ui-logger.js:22-39 | A missing container leaves the log as it is. Otherwise the log ends with the new entry and holds at most 50 entries, taken from the end of old plus new. It holds exactly 50 once the cap is reached. |
| `UiLogger.LogAllKeepsNewest` | frontend/ui-logger.js:29-39 | After any sequence of calls, the log is exactly the newest 50 of everything ever written to it, in order. |
| `UiLogger.LogAllWithoutContainer` | frontend/ui-logger.js:23-27 | Without a container, no sequence of calls creates a log. This is a small induction kept as documentation of the early return. |
| `Sampler.Init` | accelerometer.js:5-8 | At load, collection is off, no handler is registered, no prompt is pending, the buffer is empty and both timestamps hold the load time. |
| `Sampler.Toggle` | accelerometer.js:15-47 | A press negates the flag first. Switching on registers the handler at once where the motion API has no prompt, and adds one pending prompt where it has one. Where `DeviceMotionEvent` is undefined, it throws and leaves the flag on with nothing registered or pending. Switching off unregisters the handler. The buffer and the timestamps never change. |
| `Sampler.MissingMotionApiCollectsNothing` | accelerometer.js:16-24 | Without a motion API, switching on leaves collection reading as on with no handler and no prompt, so motion events change nothing. Switching off restores the starting state. |
| `Sampler.ResolveAsWritten` | accelerometer.js:25-37 | Answering a pending prompt removes it. A grant registers the handler whatever the flag now says. A denial forces the flag off and leaves the handler as it was. A failed prompt changes nothing else. |
| `Sampler.Resolve` | accelerometer.js:25-37 | The corrected answer: a grant registers the handler only while collecting, and a denial leaves collection off with no handler. |
| `Sampler.PressPressGrantListensWhileOff` | accelerometer.js:16-45 | As written, press, press, then grant leaves the handler registered with collection off. The corrected answer leaves no handler. |
| `Sampler.Tag` | accelerometer.js:58 | The coordinates are null exactly when there is no averaged location. Otherwise they are a two-element array. |
| `Sampler.TagRoundTrip` | accelerometer.js:58 | The coordinates are `[lng, lat]` of the averaged location, and reading them back gives that location. |
| `Sampler.HandleMotion` | accelerometer.js:49-73 | An event without acceleration changes nothing. Otherwise exactly one sample is appended at the end. A send happens iff `now - lastSentTime > 1000`. The batch sent is the whole buffer, including the new sample. `lastSentTime` becomes `now` only on a send. A clear happens iff `now - lastClearTime > 10000`, whether or not a send happened. A clear empties the buffer and sets `lastClearTime`. Without a clear, the buffer is the old one plus the sample. |
| `Sampler.Dispatch` | accelerometer.js:28-45 | A motion event has an effect only while the handler is registered. |
| `Sampler.FlushKeepsBuffer` | accelerometer.js:55-72 | Without a clear, the buffer grows by exactly the new sample with earlier samples in order. A send does not empty it: the batch sent equals the remaining buffer. |
| `Sampler.ConsistentPreserved` | accelerometer.js:15-47 | Presses, corrected prompt answers and motion events each preserve "handler registered implies collecting". |
| `Sampler.ToggleTwice` | accelerometer.js:38-46 | Where no prompt exists, on then off returns to the exact starting state. |
| `Sampler.FailedPromptCollectsNothing` | accelerometer.js:24-37 | When the permission prompt fails, the flag reads as on, no handler is registered, and motion events change nothing. |
| `SamplerTrace.ApplyClocks` | accelerometer.js:61-72 | One event either leaves the sends and `lastSentTime` alone, or adds one send at `now` after more than 1000 ms. The same holds for clears with 10000 ms. |
| `SamplerTrace.ApplyRecords` | accelerometer.js:49-72 | A motion event that arrives while the handler is registered and carries a reading records its sample. The sample joins the buffer, or the buffer is cleared and the clear mark moves past it. A send, if any, carries the previous buffer followed by that sample. Every other event changes neither the history, the sends, the clears nor the buffer. |
| `SamplerTrace.SendsSpaced` | accelerometer.js:61-66 | In every run, with prompts answered as written or as corrected, `lastSentTime` holds the time of the latest send. Consecutive sends lie strictly more than 1000 ms apart, whatever the clock does. |
| `SamplerTrace.ClearsSpaced` | accelerometer.js:68-72 | In every run, with prompts answered as written or as corrected, `lastClearTime` holds the time of the latest clear. Consecutive clears lie strictly more than 10000 ms apart. |
| `SamplerTrace.BufferSinceClear` | accelerometer.js:55-72 | In every run, with prompts answered either way: before any clear, the buffer is exactly the starting buffer followed by every recorded sample. After a clear, it is exactly the samples recorded since the latest clear, in arrival order. A send removes nothing. |
| `SamplerTrace.BatchesSinceClear` | accelerometer.js:55-66 | In every run, with prompts answered either way, every batch sent is non-empty. It is exactly the samples recorded since the latest clear before it, up to and including the sample that triggered the send. Before any clear, the starting buffer comes first. |
| `SamplerTrace.RunConsistent` | accelerometer.js:15-47 | With prompts answered as corrected, no run registers the handler while collection is off, however presses and answers interleave. |
| `SamplerTrace.FirstSendScenario` | accelerometer.js:49-73 | After a load at 0 ms, three events within 500 ms send nothing and leave three samples. An event at 1001 ms sends all four, and the buffer keeps them. This holds with prompts answered either way. |
| `Telemetry.Intensity` | frontend/api.js:97 | Intensity is 1 for large, 0.5 for medium and 0.2 for every other or missing severity. |
| `Telemetry.IntensityFollowsRank` | frontend/api.js:97 | Intensities order severities exactly as the ranking large > medium > other, in both directions. Every intensity lies in (0, 1]. |
| `Telemetry.HeatPoints` | frontend/api.js:94-99 | One point per pothole, in order. Each point has latitude from index 1, longitude from index 0, and the severity's intensity. |
| `Telemetry.Heatmap` | frontend/api.js:88-106 | A failed fetch, or a pothole without coordinates, yields an empty list. Otherwise the result has the same length and order as the server list, with `[lon, lat]` swapped to `[lat, lon]`. |
| `Telemetry.HeatmapRoundTrip` | frontend/api.js:94-98 | For well-formed potholes, swapping each point back gives the server's coordinates. |
| `Telemetry.SoundFileName` | frontend/api.js:141-145 | Only small, medium and large have a sound file, named `<severity>_pothole.mp3`. |
| `Telemetry.PlayPotholeSound` | frontend/api.js:139-159 | With the corrected guard, a sound plays iff the severity is small, medium or large, from `sounds/<severity>_pothole.mp3`. The attempt is always logged first. A rejected severity logs an error and nothing else. An accepted one logs the path, then the playback outcome, in red only when playback failed. |
| `Telemetry.SoundMapLookupAsWritten` | frontend/api.js:141-147 | The lookup through the prototype chain finds an own entry iff the severity is known. It finds nothing only for names neither known nor inherited from `Object.prototype`. |
| `Telemetry.GuardAdmitsInheritedName` | frontend/api.js:147-150 | The guard as written lets the unknown severity `constructor` through. |
| `Telemetry.SoundGuardCorrected` | frontend/api.js:141-152 | The corrected guard admits exactly the known severities. It agrees with the guard as written on every name not inherited from `Object.prototype`. |
| `Telemetry.PostAccelerometerData` | frontend/api.js:108-137 | With no user, nothing is sent and one "not logged in" line is logged. With a user, the batch is posted unchanged under the username header. A refresh happens iff `potholes_detected > 0`. With the corrected sound guard, a sound needs a refresh and a non-empty known severity, and its logs are the sound's logs. |
| `LegacyApi.PostAccelerometerData` | api.js:101-118 | Every batch is posted unchanged, with the stored username as header or empty without one. A refresh happens iff `potholes_detected > 0`. Nothing is logged to the page and no sound plays. |
| `LegacyApi.FlushedBatchIsPosted` | accelerometer.js:63-64 | A batch flushed by a motion event is always posted by the imported root sender, as the old buffer plus the new sample. A failed POST still drops it. With a user logged in, the newer sender posts the same body and makes the same refresh decision. |
| `Telemetry.MergeEmail` | frontend/api.js:218-221 | Every field other than `email` is kept. `email` is replaced only by a non-empty form value, and otherwise the user is unchanged. |
| `Telemetry.MergeEmailIdempotent` | frontend/api.js:218-221 | Merging the same form twice equals merging once. The merge never differs from the old user outside `email`. |
| `Telemetry.SaveProfileChanges` | frontend/api.js:200-234 | With no user, nothing is sent and there is still no user. With a user, the update goes to the username's path, with the literal `undefined` when the username is missing. The user changes only after an accepted save whose reply parses, and then exactly by the email merge. |

## Findings

| source | as written | input that shows it | evidently intended | confidence | as-written member | corrected member |
|---|---|---|---|---|---|---|
| accelerometer.js:25-36 | the `.then` of a prompt registers the handler on `'granted'` without looking at `collecting`, and a denial does not unregister | press (prompt pending), press again (off, nothing to remove), then the first prompt is granted: the handler is registered with collection off, so samples are buffered and sent while the button reads "Start Accelerometer" | a grant registers only while collecting; a denial leaves no handler | not executed; certain in the model, needs a second press before the prompt is answered | `Sampler.PressPressGrantListensWhileOff` | `Sampler.Resolve` |
| frontend/api.js:147 | `!soundMap[severity]` looks the key up through the prototype chain of an object literal | a reply with `pothole_severity` = `"constructor"` (or `toString`, `valueOf`, ...) passes the guard and a sound is attempted from `sounds/function Object() ...` | only `small`, `medium` and `large` pass | not executed; certain for the guard, low impact since the value comes from the server | `Telemetry.GuardAdmitsInheritedName` | `Telemetry.SoundGuardCorrected` |

The rest of the model uses the corrected definitions. `SamplerTrace` runs take a flag that answers prompts with `Sampler.ResolveAsWritten` or with the corrected `Sampler.Resolve`. Every trace lemma holds for both, except `SamplerTrace.RunConsistent`, which needs the correction. `Telemetry.PlayPotholeSound` and `Telemetry.PostAccelerometerData` use the own-entry lookup `Telemetry.SoundFileName`.

## Left out

- The GPS rolling average: `getAveragedLocation` is imported from `map.js`, but the `map.js` in this repository does not define it. The averaged location is an opaque optional input.
- SamplerTrace.RunConsistent: holds for runs whose prompts are answered as corrected (`Sampler.Resolve`). As written, press, press, grant breaks it (`Sampler.PressPressGrantListensWhileOff`).
- Sampler.Resolve: answers go to pending prompts in issue order, and nothing ties an answer to a particular press.
- Telemetry.PlayPotholeSound: uses the corrected own-entry guard. As written, names inherited from `Object.prototype` such as `constructor` also pass, and a sound is attempted from the string form of the inherited member (`Telemetry.GuardAdmitsInheritedName`).
- Telemetry.PostAccelerometerData: its sound decision inherits the corrected guard of `Telemetry.PlayPotholeSound`. As written, a reply naming an inherited name also attempts a sound.
- Null components of `accelerationIncludingGravity`: components are real numbers. A missing acceleration object, which makes the handler throw, is modelled as `None`.
- Timestamps: the ISO timestamp of a sample and the locale time of a log line are opaque strings. `Date.now()` is the `now` parameter.
- JSON value types other than those modelled: a numeric `pothole_severity`, a `potholes_detected` sent as a string, and non-string user fields.
- Console output (`console.log` and `console.error` lines) and `alert` messages are not outputs of the model. Only `logToUI` lines are.
- `sound.play()` and `new Audio(...)`: playback is the `AudioOutcome` input. The scroll position of the log container is not modelled.
- `login`, `signup`, `logout`, `fetchLeaderboard`, `fetchUserStats`, `displayBackendVersion` and `recalculatePotholes` in `frontend/api.js` are fetch-and-display wrappers with no decision logic beyond the fetch.
- The rest of the root `api.js` (login, leaderboard, pothole fetch and the other wrappers) duplicates `frontend/api.js` without its decision logic. Only its `postAccelerometerData`, the sender the sampler calls, is modelled.
- Map setup, tiles and night mode (`map.js`, the map parts of `app.js`), modal and menu code (`ui.js`, `frontend/ui.js`, `auth.js`), the worker `accelerometer-worker.js`, the service worker `sw.js`, `frontend/file-checker.js`, the bootstrapping `main.js` files and the static backend route: rendering, UI plumbing, transport or bootstrapping, none of it part of the telemetry core.
- `getCurrentUser` is not part of this model. The current user is a parameter.
- Local storage: the username the root sender reads from `localStorage` is a parameter.

=== FILE: accelerometer.dfy ===
/** The motion sampler of accelerometer.js: a collection flag, the
    `devicemotion` listener registration, a buffer of samples and the two
    timestamps that pace sending and clearing. Wall-clock time and the
    averaged location are inputs; the batch handed to the sender is an
    output. */
module Sampler {
  import opened JsValues

  /** A batch is sent when strictly more than this many milliseconds have
      passed since the last send. */
  const FlushIntervalMs: int := 1000

  /** The buffer is emptied when strictly more than this many milliseconds
      have passed since the last clear. */
  const ClearIntervalMs: int := 10000

  /** An averaged GPS position. */
  datatype LatLng = LatLng(lat: real, lng: real)

  /** `accelerationIncludingGravity` of a motion event. */
  datatype Acceleration = Acceleration(x: real, y: real, z: real)

  /** One buffered reading; `coordinates` is `[longitude, latitude]` or null. */
  datatype Sample = Sample(timestamp: string, acceleration: Acceleration, coordinates: Option<seq<real>>)

  /** The module-level variables of the sampler. `listening` says whether
      the motion handler is registered on the window; `pending` counts the
      motion-permission prompts issued and not yet answered. */
  datatype State = State(
    collecting: bool,
    listening: bool,
    pending: nat,
    buffer: seq<Sample>,
    lastSentTime: int,
    lastClearTime: int)

  /** How a motion-permission prompt is answered: granted, denied, or the
      prompt itself fails. */
  datatype Answer = Granted | Denied | PromptFailed

  /** The state after one motion event, and the batch sent, if any. */
  datatype StepResult = StepResult(state: State, flushed: Option<seq<Sample>>)

  /** The state when the module is loaded at `loadTime`. */
  function Init(loadTime: int): (s: State)
    ensures !s.collecting && !s.listening && s.pending == 0 && s.buffer == []
    ensures s.lastSentTime == loadTime && s.lastClearTime == loadTime
  {
    State(false, false, 0, [], loadTime, loadTime)
  }

  /** What the browser offers for motion: `DeviceMotionEvent` without a
      permission prompt, with one, or not at all. */
  datatype Platform = NoPrompt | Prompt | NoMotionApi

  /** `toggleAccelerometer`, a press of the button: the flag is negated
      first. Switching on then registers the handler at once where no prompt
      exists, issues a prompt whose answer arrives later where one does, and
      throws where `DeviceMotionEvent` is undefined (reading its
      `requestPermission` member), leaving the flag on with nothing
      registered. Switching off unregisters the handler. No press touches
      the buffer or the timestamps. */
  function Toggle(s: State, platform: Platform): (t: State)
    ensures t.collecting == !s.collecting
    ensures t.buffer == s.buffer
    ensures t.lastSentTime == s.lastSentTime && t.lastClearTime == s.lastClearTime
    ensures s.collecting ==> !t.listening && t.pending == s.pending
    ensures !s.collecting && platform == NoPrompt ==> t.listening && t.pending == s.pending
    ensures !s.collecting && platform == Prompt ==> t.listening == s.listening && t.pending == s.pending + 1
    ensures !s.collecting && platform == NoMotionApi ==> t.listening == s.listening && t.pending == s.pending
  {
    if s.collecting then s.(collecting := false, listening := false)
    else
      match platform
      case NoPrompt => s.(collecting := true, listening := true)
      case Prompt => s.(collecting := true, pending := s.pending + 1)
      case NoMotionApi => s.(collecting := true)
  }

  /** The answer to the oldest pending prompt, as the code handles it: a
      grant registers the handler whatever the flag now says, a denial
      switches the flag off without unregistering anything, and a failed
      prompt is only logged. */
  function ResolveAsWritten(s: State, answer: Answer): (t: State)
    requires s.pending > 0
    ensures t.pending == s.pending - 1
    ensures t.buffer == s.buffer
    ensures t.lastSentTime == s.lastSentTime && t.lastClearTime == s.lastClearTime
    ensures answer == Granted ==> t.listening && t.collecting == s.collecting
    ensures answer == Denied ==> !t.collecting && t.listening == s.listening
    ensures answer == PromptFailed ==> t.collecting == s.collecting && t.listening == s.listening
  {
    match answer
    case Granted => s.(pending := s.pending - 1, listening := true)
    case Denied => s.(pending := s.pending - 1, collecting := false)
    case PromptFailed => s.(pending := s.pending - 1)
  }

  /** The answer to a pending prompt as evidently intended: a grant
      registers the handler only while collection is still on, and a denial
      leaves collection off with no handler. */
  function Resolve(s: State, answer: Answer): (t: State)
    requires s.pending > 0
    ensures t.pending == s.pending - 1
    ensures t.buffer == s.buffer
    ensures t.lastSentTime == s.lastSentTime && t.lastClearTime == s.lastClearTime
    ensures answer == Granted ==> t.collecting == s.collecting && (t.listening <==> s.collecting || s.listening)
    ensures answer == Denied ==> !t.collecting && !t.listening
    ensures answer == PromptFailed ==> t.collecting == s.collecting && t.listening == s.listening
  {
    match answer
    case Granted => s.(pending := s.pending - 1, listening := s.collecting || s.listening)
    case Denied => s.(pending := s.pending - 1, collecting := false, listening := false)
    case PromptFailed => s.(pending := s.pending - 1)
  }

  /** The coordinates attached to a sample: `[lng, lat]` of the averaged
      location, or null without one. */
  function Tag(location: Option<LatLng>): (coordinates: Option<seq<real>>)
    ensures location.None? <==> coordinates.None?
    ensures coordinates.Some? ==> |coordinates.value| == 2
  {
    match location
    case None => None
    case Some(p) => Some([p.lng, p.lat])
  }

  /** How a receiver of the batch reads a sample's coordinates back. */
  function LocationOf(coordinates: Option<seq<real>>): Option<LatLng> {
    match coordinates
    case None => None
    case Some(c) => if |c| == 2 then Some(LatLng(c[1], c[0])) else None
  }

  /** Reading the coordinates back yields the averaged location the sample
      was tagged with, so the pair really is longitude first. */
  lemma TagRoundTrip(location: Option<LatLng>)
    ensures LocationOf(Tag(location)) == location
    ensures location.Some? ==> Tag(location).value[0] == location.value.lng
    ensures location.Some? ==> Tag(location).value[1] == location.value.lat
  {
  }

  /** The sample a motion event produces. */
  function MakeSample(stamp: string, acceleration: Acceleration, location: Option<LatLng>): Sample {
    Sample(stamp, acceleration, Tag(location))
  }

  /** `handleMotion` at wall-clock time `now`. `reading` is `None` when the
      event carries no acceleration object, in which case the handler
      throws before touching any state. Otherwise it appends one sample,
      sends the whole buffer when more than `FlushIntervalMs` passed since
      the last send, and then, independently, empties the buffer when more
      than `ClearIntervalMs` passed since the last clear. */
  function HandleMotion(s: State, now: int, stamp: string, reading: Option<Acceleration>, location: Option<LatLng>): (r: StepResult)
    ensures reading.None? ==> r == StepResult(s, None)
    ensures r.state.collecting == s.collecting && r.state.listening == s.listening
    ensures r.state.pending == s.pending
    ensures reading.Some? ==>
      var appended := s.buffer + [MakeSample(stamp, reading.value, location)];
      && (r.flushed.Some? <==> now - s.lastSentTime > FlushIntervalMs)
      && (r.flushed.Some? ==> r.flushed.value == appended)
      && (r.flushed.Some? ==> r.state.lastSentTime == now)
      && (r.flushed.None? ==> r.state.lastSentTime == s.lastSentTime)
      && (now - s.lastClearTime > ClearIntervalMs ==> r.state.buffer == [] && r.state.lastClearTime == now)
      && (now - s.lastClearTime <= ClearIntervalMs ==> r.state.buffer == appended && r.state.lastClearTime == s.lastClearTime)
  {
    match reading
    case None => StepResult(s, None)
    case Some(a) =>
      var buffer := s.buffer + [MakeSample(stamp, a, location)];
      var flushed := if now - s.lastSentTime > FlushIntervalMs then Some(buffer) else None;
      var lastSent := if flushed.Some? then now else s.lastSentTime;
      var clear := now - s.lastClearTime > ClearIntervalMs;
      var s' := s.(buffer := if clear then [] else buffer,
                   lastSentTime := lastSent,
                   lastClearTime := if clear then now else s.lastClearTime);
      StepResult(s', flushed)
  }

  /** A motion event reaches `HandleMotion` only while the handler is
      registered. */
  function Dispatch(s: State, now: int, stamp: string, reading: Option<Acceleration>, location: Option<LatLng>): (r: StepResult)
    ensures !s.listening ==> r == StepResult(s, None)
    ensures s.listening ==> r == HandleMotion(s, now, stamp, reading, location)
  {
    if s.listening then HandleMotion(s, now, stamp, reading, location) else StepResult(s, None)
  }

  /** A sent batch is never empty and always ends with the sample of the
      event that sent it; sending alone never empties the buffer. */
  lemma FlushKeepsBuffer(s: State, now: int, stamp: string, a: Acceleration, location: Option<LatLng>)
    requires now - s.lastClearTime <= ClearIntervalMs
    ensures var r := HandleMotion(s, now, stamp, Some(a), location);
      && |r.state.buffer| == |s.buffer| + 1
      && r.state.buffer[|s.buffer|] == MakeSample(stamp, a, location)
      && r.state.buffer[..|s.buffer|] == s.buffer
      && (r.flushed.Some? ==> r.flushed.value == r.state.buffer)
  {
  }

  /** The listener is registered only while collection is on. */
  predicate Consistent(s: State) {
    s.listening ==> s.collecting
  }

  /** Every press, every answer handled as intended and every motion event
      preserves `Consistent`. */
  lemma ConsistentPreserved(s: State, platform: Platform, answer: Answer, now: int, stamp: string,
                            reading: Option<Acceleration>, location: Option<LatLng>)
    requires Consistent(s)
    ensures Consistent(Toggle(s, platform))
    ensures s.pending > 0 ==> Consistent(Resolve(s, answer))
    ensures Consistent(Dispatch(s, now, stamp, reading, location).state)
  {
  }

  /** As written, pressing twice before the prompt is answered and then
      granting it leaves the handler registered with collection off: motion
      is sampled and sent while the button offers to start collecting. */
  lemma PressPressGrantListensWhileOff(loadTime: int)
    ensures var s := ResolveAsWritten(Toggle(Toggle(Init(loadTime), Prompt), Prompt), Granted);
      s.listening && !s.collecting && !Consistent(s)
    ensures var s := Resolve(Toggle(Toggle(Init(loadTime), Prompt), Prompt), Granted);
      !s.listening && !s.collecting
  {
  }

  /** On a platform without a prompt, switching on and then off again
      leaves the flag, the listener, the buffer and the timestamps where
      they were. */
  lemma ToggleTwice(s: State)
    requires !s.collecting && !s.listening
    ensures Toggle(s, NoPrompt).collecting && Toggle(s, NoPrompt).listening
    ensures Toggle(Toggle(s, NoPrompt), NoPrompt) == s
  {
  }

  /** When the prompt itself fails, collection reads as on while no handler
      is registered, so motion events change nothing. */
  lemma FailedPromptCollectsNothing(s: State, now: int, stamp: string,
                                    reading: Option<Acceleration>, location: Option<LatLng>)
    requires !s.collecting && !s.listening
    ensures var t := Resolve(Toggle(s, Prompt), PromptFailed);
      && t == ResolveAsWritten(Toggle(s, Prompt), PromptFailed)
      && t.collecting && !t.listening
      && Dispatch(t, now, stamp, reading, location) == StepResult(t, None)
  {
  }

  /** Where the browser has no motion API, switching on throws after the
      flag is set: collection reads as on, no handler is registered, no
      prompt is pending, and motion events change nothing. Switching off
      again works as everywhere else. */
  lemma MissingMotionApiCollectsNothing(s: State, now: int, stamp: string,
                                        reading: Option<Acceleration>, location: Option<LatLng>)
    requires !s.collecting && !s.listening
    ensures var t := Toggle(s, NoMotionApi);
      && t.collecting && !t.listening && t.pending == s.pending
      && Dispatch(t, now, stamp, reading, location) == StepResult(t, None)
      && Toggle(t, NoMotionApi) == s
  {
  }
}

=== FILE: api.dfy ===
/** The decision logic of frontend/api.js: turning the server's potholes into
    heatmap points, sending a batch of samples and reacting to the reply,
    choosing the sound for a detection, and merging a saved profile into the
    current user. Every network reply, the audio playback outcome and the
    current user are inputs; requests, log lines and user updates are
    outputs. */
module Telemetry {
  import opened JsValues
  import Colors
  import Sampler

  // ---------------------------------------------------------------------
  // Heatmap of the server's potholes
  // ---------------------------------------------------------------------

  /** One pothole as the server sends it: `coordinates` is the JSON array
      `[lon, lat]` (or missing), `severity` a string (or missing). */
  datatype ServerPothole = ServerPothole(coordinates: Option<seq<real>>, severity: Option<string>)

  /** The outcome of fetching the potholes: the request, the JSON parse or
      the `map` over a non-array body failed, or an array of potholes. */
  datatype PotholesReply = PotholesUnavailable | PotholesBody(potholes: seq<ServerPothole>)

  /** One heatmap point `[lat, lon, intensity]`; a coordinate the server's
      array lacks is `undefined`. */
  datatype HeatPoint = HeatPoint(lat: Option<real>, lon: Option<real>, intensity: real)

  /** Heat weight of a severity. */
  function Intensity(severity: Option<string>): (r: real)
    ensures severity == Some("large") ==> r == 1.0
    ensures severity == Some("medium") ==> r == 0.5
    ensures severity != Some("large") && severity != Some("medium") ==> r == 0.2
  {
    if severity == Some("large") then 1.0
    else if severity == Some("medium") then 0.5
    else 0.2
  }

  /** An independent ordering of severities: large over medium over
      everything else. */
  function Rank(severity: Option<string>): nat {
    match severity
    case Some("large") => 2
    case Some("medium") => 1
    case _ => 0
  }

  /** Heat weight orders severities exactly as their rank does, so a larger
      pothole always glows hotter and equal ranks glow alike. */
  lemma IntensityFollowsRank(a: Option<string>, b: Option<string>)
    ensures Intensity(a) < Intensity(b) <==> Rank(a) < Rank(b)
    ensures Intensity(a) == Intensity(b) <==> Rank(a) == Rank(b)
    ensures 0.0 < Intensity(a) <= 1.0
  {
  }

  /** Every pothole carries a coordinates array (reading index 1 of a missing
      one throws). */
  predicate Located(ps: seq<ServerPothole>) {
    forall i :: 0 <= i < |ps| ==> ps[i].coordinates.Some?
  }

  /** The point for one located pothole: the `[lon, lat]` pair swapped. */
  function PointOf(p: ServerPothole): HeatPoint
    requires p.coordinates.Some?
  {
    HeatPoint(At(p.coordinates.value, 1), At(p.coordinates.value, 0), Intensity(p.severity))
  }

  /** `data.map(...)` over located potholes. */
  function HeatPoints(ps: seq<ServerPothole>): (r: seq<HeatPoint>)
    requires Located(ps)
    ensures |r| == |ps|
    ensures forall i :: 0 <= i < |ps| ==>
      && r[i].lat == At(ps[i].coordinates.value, 1)
      && r[i].lon == At(ps[i].coordinates.value, 0)
      && r[i].intensity == Intensity(ps[i].severity)
  {
    if |ps| == 0 then []
    else HeatPoints(ps[..|ps| - 1]) + [PointOf(ps[|ps| - 1])]
  }

  /** `fetchAndDisplayPotholes`: the heatmap points, one per pothole in the
      server's order, or none at all when the fetch fails or any pothole
      lacks coordinates. */
  function Heatmap(reply: PotholesReply): (r: seq<HeatPoint>)
    ensures reply.PotholesUnavailable? ==> r == []
    ensures reply.PotholesBody? && !Located(reply.potholes) ==> r == []
    ensures reply.PotholesBody? && Located(reply.potholes) ==>
      && |r| == |reply.potholes|
      && forall i :: 0 <= i < |r| ==>
           && r[i].lat == At(reply.potholes[i].coordinates.value, 1)
           && r[i].lon == At(reply.potholes[i].coordinates.value, 0)
           && r[i].intensity == Intensity(reply.potholes[i].severity)
  {
    match reply
    case PotholesUnavailable => []
    case PotholesBody(ps) => if Located(ps) then HeatPoints(ps) else []
  }

  /** A heatmap point read back in the server's `[lon, lat]` order. */
  function ServerCoordinates(h: HeatPoint): Option<seq<real>> {
    if h.lat.Some? && h.lon.Some? then Some([h.lon.value, h.lat.value]) else None
  }

  /** For well-formed potholes (a two-element coordinates array each), swapping
      back every heatmap point yields the server's coordinates: the map loses
      no position and permutes no entries. */
  lemma HeatmapRoundTrip(ps: seq<ServerPothole>)
    requires forall i :: 0 <= i < |ps| ==> ps[i].coordinates.Some? && |ps[i].coordinates.value| == 2
    ensures |Heatmap(PotholesBody(ps))| == |ps|
    ensures forall i :: 0 <= i < |ps| ==> ServerCoordinates(Heatmap(PotholesBody(ps))[i]) == ps[i].coordinates
  {
    var r := Heatmap(PotholesBody(ps));
    forall i | 0 <= i < |ps|
      ensures ServerCoordinates(r[i]) == ps[i].coordinates
    {
      var c := ps[i].coordinates.value;
      assert c == [c[0], c[1]];
    }
  }

  // ---------------------------------------------------------------------
  // Sounds
  // ---------------------------------------------------------------------

  /** One `logToUI(message, type)` call; `None` leaves the type at its default. */
  datatype Log = Log(message: string, kind: Option<string>)

  /** Whether `sound.play()` resolved or rejected with the given reason. */
  datatype AudioOutcome = Played | PlayFailed(reason: string)

  /** What `playPotholeSound` does: the sound file it plays, if any, and the
      lines it logs in order. */
  datatype SoundEffects = SoundEffects(file: Option<string>, logs: seq<Log>)

  /** The own entries of the sound table: the file for each known severity. */
  function SoundFileName(severity: string): (file: Option<string>)
    ensures file.Some? <==> severity in Colors.Severities
    ensures file.Some? ==> file.value == severity + "_pothole.mp3"
  {
    if severity in Colors.Severities then Some(severity + "_pothole.mp3") else None
  }

  /** `playPotholeSound`: known severities play `sounds/<severity>_pothole.mp3`
      and log the attempt, the path and the playback outcome; anything else
      logs the attempt and an error, and plays nothing. */
  function PlayPotholeSound(severity: string, audio: AudioOutcome): (r: SoundEffects)
    ensures r.file.Some? <==> severity in Colors.Severities
    ensures r.file.Some? ==> r.file.value == "sounds/" + severity + "_pothole.mp3"
    ensures |r.logs| >= 2
    ensures r.logs[0] == Log("Attempting to play sound for " + severity + " pothole", None)
    ensures r.file.None? ==>
      r.logs == [Log("Attempting to play sound for " + severity + " pothole", None),
                 Log("Invalid severity: " + severity, Some("error"))]
    ensures r.file.Some? ==> |r.logs| == 3 && r.logs[1] == Log("Sound file path: " + r.file.value, None)
    ensures r.file.Some? ==> (r.logs[2].kind == Some("error") <==> audio.PlayFailed?)
  {
    var attempt := Log("Attempting to play sound for " + severity + " pothole", None);
    match SoundFileName(severity)
    case None => SoundEffects(None, [attempt, Log("Invalid severity: " + severity, Some("error"))])
    case Some(name) =>
      var path := "sounds/" + name;
      var outcome := match audio
        case Played => Log("Sound played successfully for " + severity + " pothole", None)
        case PlayFailed(reason) => Log("Error playing sound: " + reason, Some("error"));
      SoundEffects(Some(path), [attempt, Log("Sound file path: " + path, None), outcome])
  }

  /** The names every plain JavaScript object inherits from `Object.prototype`;
      looking one up on an object literal yields a function or an object,
      both truthy. */
  const ObjectPrototypeNames: set<string> := {
    "constructor", "hasOwnProperty", "isPrototypeOf", "propertyIsEnumerable",
    "toLocaleString", "toString", "valueOf", "__proto__",
    "__defineGetter__", "__defineSetter__", "__lookupGetter__", "__lookupSetter__"
  }

  /** What `soundMap[severity]` finds on the object literal as written: an
      own entry, an inherited member, or nothing. */
  datatype Lookup = Own(file: string) | Inherited(name: string) | Missing

  /** Property lookup on the sound table as the code performs it, through the
      prototype chain. */
  function SoundMapLookupAsWritten(severity: string): (r: Lookup)
    ensures r.Own? <==> severity in Colors.Severities
    ensures r.Missing? <==> severity !in Colors.Severities && severity !in ObjectPrototypeNames
  {
    if severity in Colors.Severities then Own(severity + "_pothole.mp3")
    else if severity in ObjectPrototypeNames then Inherited(severity)
    else Missing
  }

  /** The guard `!soundMap[severity]` as written lets a severity through
      exactly when the lookup finds something. */
  predicate GuardPassesAsWritten(severity: string) {
    !SoundMapLookupAsWritten(severity).Missing?
  }

  /** The guard as written admits a severity outside the table: a server
      reply naming "constructor" gets past it and a sound is attempted from
      the string form of `Object`. */
  lemma GuardAdmitsInheritedName()
    ensures GuardPassesAsWritten("constructor")
    ensures "constructor" !in Colors.Severities
    ensures SoundMapLookupAsWritten("constructor") == Inherited("constructor")
  {
  }

  /** The corrected guard, an own-entry lookup, admits exactly the known
      severities; it agrees with the guard as written on every name that is
      not inherited from `Object.prototype`. */
  lemma SoundGuardCorrected(severity: string)
    ensures PlayPotholeSound(severity, Played).file.Some? <==> severity in Colors.Severities
    ensures severity !in ObjectPrototypeNames ==>
      (GuardPassesAsWritten(severity) <==> PlayPotholeSound(severity, Played).file.Some?)
  {
  }

  // ---------------------------------------------------------------------
  // Sending a batch of samples
  // ---------------------------------------------------------------------

  /** The current user as a JavaScript object: its own string fields. */
  type User = map<string, string>

  /** The `X-User` header: the username, or empty without one. */
  function UserHeader(u: User): string {
    if "username" in u then u["username"] else ""
  }

  /** A POST the client issues. */
  datatype Request = Request(path: string, userHeader: string, body: seq<Sampler.Sample>)

  /** The reply to the POST of a batch: the request or the JSON parse
      failed, or the parsed result with its two optional fields. */
  datatype PostReply =
    | PostFailed
    | PostAnswer(potholesDetected: Option<int>, potholeSeverity: Option<string>)

  /** What sending a batch does: the request made, whether the potholes are
      fetched again, the sound file played, and the lines logged. */
  datatype PostEffects = PostEffects(request: Option<Request>, refresh: bool, sound: Option<string>, logs: seq<Log>)

  const NotLoggedIn := "User not logged in. Data not sent."

  /** The reply reports at least one detected pothole. */
  predicate Detected(reply: PostReply) {
    reply.PostAnswer? && reply.potholesDetected.Some? && reply.potholesDetected.value > 0
  }

  /** `postAccelerometerData`: without a user nothing is sent and one line is
      logged; otherwise the batch is posted under the user's name, and a
      reply reporting detections triggers a refresh of the potholes and,
      when it names a severity, the sound for it. */
  function PostAccelerometerData(user: Option<User>, data: seq<Sampler.Sample>, reply: PostReply, audio: AudioOutcome): (e: PostEffects)
    ensures user.None? ==> e == PostEffects(None, false, None, [Log(NotLoggedIn, None)])
    ensures user.Some? ==> e.request == Some(Request("/accelerometer-data", UserHeader(user.value), data))
    ensures e.refresh <==> user.Some? && Detected(reply)
    ensures e.sound.Some? ==> e.refresh
    ensures e.sound.Some? <==>
      e.refresh && Truthy(reply.potholeSeverity) && reply.potholeSeverity.value in Colors.Severities
    ensures !e.refresh && user.Some? ==> e.logs == []
    ensures e.refresh && Truthy(reply.potholeSeverity) ==>
      var sound := PlayPotholeSound(reply.potholeSeverity.value, audio);
      e.sound == sound.file && e.logs == sound.logs
    ensures e.refresh && !Truthy(reply.potholeSeverity) ==> e.logs == []
  {
    match user
    case None => PostEffects(None, false, None, [Log(NotLoggedIn, None)])
    case Some(u) =>
      var request := Request("/accelerometer-data", UserHeader(u), data);
      if Detected(reply) then
        if Truthy(reply.potholeSeverity) then
          var sound := PlayPotholeSound(reply.potholeSeverity.value, audio);
          PostEffects(Some(request), true, sound.file, sound.logs)
        else PostEffects(Some(request), true, None, [])
      else PostEffects(Some(request), false, None, [])
  }

  // ---------------------------------------------------------------------
  // Saving the profile
  // ---------------------------------------------------------------------

  /** The reply to the profile update: the request failed, the server
      refused it, or it accepted it, with a body that does or does not
      parse to a non-null value (`result.message` throws on anything
      else). */
  datatype ProfileReply = ProfileUnreachable | ProfileRefused | ProfileSaved(bodyIsJson: bool)

  /** What saving the profile does: the request path, if a request is made,
      and the current user afterwards. */
  datatype ProfileEffects = ProfileEffects(requestPath: Option<string>, user: Option<User>)

  /** The username as it lands in a URL template: the literal text
      "undefined" when the field is missing. */
  function UsernameSegment(u: User): string {
    if "username" in u then u["username"] else "undefined"
  }

  /** `{...currentUser, email: formEmail || currentUser.email}`. */
  function MergeEmail(u: User, formEmail: Option<string>): (r: User)
    ensures forall k :: k in u && k != "email" ==> k in r && r[k] == u[k]
    ensures Truthy(formEmail) ==> r.Keys == u.Keys + {"email"} && r["email"] == formEmail.value
    ensures !Truthy(formEmail) ==> r == u
  {
    if Truthy(formEmail) then u["email" := formEmail.value] else u
  }

  /** Merging the same form twice changes nothing more, and no field other
      than `email` ever differs from the user before the merge. */
  lemma MergeEmailIdempotent(u: User, formEmail: Option<string>)
    ensures MergeEmail(MergeEmail(u, formEmail), formEmail) == MergeEmail(u, formEmail)
    ensures MergeEmail(u, formEmail) - {"email"} == u - {"email"}
  {
  }

  /** `saveProfileChanges`: without a user no request is made; otherwise the
      update is posted under the username, and only an accepted update whose
      reply parses changes the user, through `MergeEmail`. */
  function SaveProfileChanges(user: Option<User>, formEmail: Option<string>, reply: ProfileReply): (e: ProfileEffects)
    ensures user.None? ==> e == ProfileEffects(None, None)
    ensures user.Some? ==> e.requestPath == Some("/update-profile/" + UsernameSegment(user.value))
    ensures e.user != user <==> user.Some? && reply == ProfileSaved(true) && MergeEmail(user.value, formEmail) != user.value
    ensures user.Some? && reply == ProfileSaved(true) ==> e.user == Some(MergeEmail(user.value, formEmail))
    ensures e.user.Some? <==> user.Some?
  {
    match user
    case None => ProfileEffects(None, None)
    case Some(u) =>
      var path := "/update-profile/" + UsernameSegment(u);
      if reply == ProfileSaved(true) then ProfileEffects(Some(path), Some(MergeEmail(u, formEmail)))
      else ProfileEffects(Some(path), user)
  }
}

=== FILE: colors.dfy ===
/** The two colour classifiers of app.js: road condition to polyline colour
    and pothole severity to marker colour. Both are total, with gray as the
    colour of every value they do not know. */
module Colors {
  import opened JsValues

  const Gray := "gray"

  /** The road conditions the server reports. */
  const Conditions: set<string> := {"good", "fair", "poor"}

  /** The pothole severities the server reports. */
  const Severities: set<string> := {"small", "medium", "large"}

  /** Colour of a road polyline for its condition. */
  function ConditionColor(condition: string): (color: string)
    ensures condition == "good" ==> color == "blue"
    ensures condition == "fair" ==> color == "yellow"
    ensures condition == "poor" ==> color == "red"
    ensures color == Gray <==> condition !in Conditions
  {
    if condition == "good" then "blue"
    else if condition == "fair" then "yellow"
    else if condition == "poor" then "red"
    else Gray
  }

  /** Colour of a pothole marker for its severity. */
  function PotholeColor(severity: string): (color: string)
    ensures severity == "large" ==> color == "red"
    ensures severity == "medium" ==> color == "orange"
    ensures severity == "small" ==> color == "yellow"
    ensures color == Gray <==> severity !in Severities
  {
    if severity == "large" then "red"
    else if severity == "medium" then "orange"
    else if severity == "small" then "yellow"
    else Gray
  }

  /** The map legend read backwards: which condition a road colour stands for. */
  function ConditionOfColor(color: string): Option<string> {
    if color == "blue" then Some("good")
    else if color == "yellow" then Some("fair")
    else if color == "red" then Some("poor")
    else None
  }

  /** The legend read backwards for pothole markers. */
  function SeverityOfColor(color: string): Option<string> {
    if color == "red" then Some("large")
    else if color == "orange" then Some("medium")
    else if color == "yellow" then Some("small")
    else None
  }

  /** A road's colour identifies its condition exactly when the condition is
      a known one; every unknown condition reads as no condition at all. */
  lemma ConditionLegend(condition: string)
    ensures condition in Conditions <==> ConditionOfColor(ConditionColor(condition)) == Some(condition)
    ensures condition !in Conditions ==> ConditionOfColor(ConditionColor(condition)) == None
  {
  }

  /** Distinct known conditions never share a colour. */
  lemma ConditionColorsDistinct(c1: string, c2: string)
    requires c1 in Conditions && c2 in Conditions && c1 != c2
    ensures ConditionColor(c1) != ConditionColor(c2)
  {
  }

  /** A marker's colour identifies its severity exactly when the severity is
      a known one. */
  lemma SeverityLegend(severity: string)
    ensures severity in Severities <==> SeverityOfColor(PotholeColor(severity)) == Some(severity)
    ensures severity !in Severities ==> SeverityOfColor(PotholeColor(severity)) == None
  {
  }

  /** Distinct known severities never share a colour. */
  lemma SeverityColorsDistinct(s1: string, s2: string)
    requires s1 in Severities && s2 in Severities && s1 != s2
    ensures PotholeColor(s1) != PotholeColor(s2)
  {
  }
}

=== FILE: js_values.dfy ===
/** JavaScript value conventions shared by the rest of the model: an absent
    (`undefined` or `null`) value is `None`, and a string is truthy exactly
    when it is present and non-empty. */
module JsValues {

  /** A value that may be `undefined` or `null` in JavaScript. */
  datatype Option<+T> = None | Some(value: T)

  /** JavaScript truthiness of an optional string. */
  predicate Truthy(s: Option<string>) {
    s.Some? && s.value != ""
  }

  /** Reading `xs[i]` of a JavaScript array: `undefined` past the end. */
  function At<T>(xs: seq<T>, i: nat): Option<T> {
    if i < |xs| then Some(xs[i]) else None
  }

  /** `s` is a (possibly empty) trailing part of `t`. */
  predicate IsSuffix<T(==)>(s: seq<T>, t: seq<T>) {
    |s| <= |t| && s == t[|t| - |s|..]
  }
}

=== FILE: root_api.dfy ===
/** The sender that accelerometer.js imports from the root api.js: it posts
    every batch under the username kept in local storage, with no check for
    a logged-in user, and refreshes the potholes when the reply reports a
    detection. It logs nothing to the page and plays no sound. */
module LegacyApi {
  import opened JsValues
  import Sampler
  import Telemetry

  /** `postAccelerometerData` of the root api.js; `storedUsername` is
      `localStorage.getItem('username')`. */
  function PostAccelerometerData(storedUsername: Option<string>, data: seq<Sampler.Sample>,
                                 reply: Telemetry.PostReply): (e: Telemetry.PostEffects)
    ensures e.request.Some?
    ensures e.request.value.path == "/accelerometer-data" && e.request.value.body == data
    ensures Truthy(storedUsername) ==> e.request.value.userHeader == storedUsername.value
    ensures !Truthy(storedUsername) ==> e.request.value.userHeader == ""
    ensures e.refresh <==> Telemetry.Detected(reply)
    ensures e.sound.None? && e.logs == []
  {
    var header := if Truthy(storedUsername) then storedUsername.value else "";
    Telemetry.PostEffects(Some(Telemetry.Request("/accelerometer-data", header, data)),
                          Telemetry.Detected(reply), None, [])
  }

  /** Every batch a motion event flushes is posted by this sender, logged
      in or not, as the old buffer followed by the new sample (whether the
      POST succeeds is the reply's business); the two senders agree on the
      body and the refresh whenever a user is logged in. */
  lemma FlushedBatchIsPosted(s: Sampler.State, now: int, stamp: string, a: Sampler.Acceleration,
                             location: Option<Sampler.LatLng>, storedUsername: Option<string>,
                             reply: Telemetry.PostReply, user: Option<Telemetry.User>,
                             audio: Telemetry.AudioOutcome)
    requires now - s.lastSentTime > Sampler.FlushIntervalMs
    ensures var r := Sampler.HandleMotion(s, now, stamp, Some(a), location);
      var e := PostAccelerometerData(storedUsername, r.flushed.value, reply);
      && e.request.Some?
      && e.request.value.body == s.buffer + [Sampler.MakeSample(stamp, a, location)]
    ensures var r := Sampler.HandleMotion(s, now, stamp, Some(a), location);
      var legacy := PostAccelerometerData(storedUsername, r.flushed.value, reply);
      var current := Telemetry.PostAccelerometerData(user, r.flushed.value, reply, audio);
      user.Some? ==> current.request.value.body == legacy.request.value.body && current.refresh == legacy.refresh
  {
  }
}

=== FILE: sampler_trace.dfy ===
/** Runs of the motion sampler over a sequence of user presses, prompt
    answers and motion events, and what holds of every run, whether the
    prompts are answered as the code does or as corrected: sends and clears
    are paced by their intervals, the buffer holds exactly the samples
    recorded since the last clear, and every sent batch is exactly the
    samples recorded since the last clear up to that send. */
module SamplerTrace {
  import opened JsValues
  import opened Sampler

  /** An input to the sampler: a press of the toggle button on the given
      platform, the answer to the oldest pending prompt, or a motion
      event. */
  datatype Event =
    | Press(platform: Platform)
    | Answered(answer: Answer)
    | Motion(now: int, stamp: string, reading: Option<Acceleration>, location: Option<LatLng>)

  /** A batch handed to the sender at `time`. `seen` is how many samples
      had been recorded by then, and `from` the number recorded at the
      latest clear before it (`None` before any clear). */
  datatype Send = Send(time: int, batch: seq<Sample>, seen: nat, from: Option<nat>)

  /** The sampler state after a run, with everything it did on the way:
      the batches sent, the times the buffer was cleared, every sample
      recorded in arrival order, and how many had been recorded at the
      latest clear. */
  datatype Trace = Trace(state: State, sends: seq<Send>, clears: seq<int>, history: seq<Sample>, clearMark: nat)

  /** Whether a motion event is recorded in state `s`. */
  predicate Recorded(s: State, e: Event) {
    e.Motion? && s.listening && e.reading.Some?
  }

  /** Applies one event to a trace. Prompts are answered as the code does
      (`asWritten`) or as corrected; an answer with no prompt pending is no
      event at all. */
  function Apply(tr: Trace, e: Event, asWritten: bool): Trace {
    match e
    case Press(platform) => tr.(state := Toggle(tr.state, platform))
    case Answered(answer) =>
      if tr.state.pending == 0 then tr
      else if asWritten then tr.(state := ResolveAsWritten(tr.state, answer))
      else tr.(state := Resolve(tr.state, answer))
    case Motion(now, stamp, reading, location) =>
      var r := Dispatch(tr.state, now, stamp, reading, location);
      var recorded := Recorded(tr.state, e);
      var history := if recorded then tr.history + [MakeSample(stamp, reading.value, location)] else tr.history;
      var from := if |tr.clears| == 0 then None else Some(tr.clearMark);
      var sends := if r.flushed.Some? then tr.sends + [Send(now, r.flushed.value, |history|, from)] else tr.sends;
      var cleared := recorded && now - tr.state.lastClearTime > ClearIntervalMs;
      var clears := if cleared then tr.clears + [now] else tr.clears;
      Trace(r.state, sends, clears, history, if cleared then |history| else tr.clearMark)
  }

  /** The trace of running `events` from state `s`. */
  function Run(s: State, events: seq<Event>, asWritten: bool): Trace {
    if |events| == 0 then Trace(s, [], [], [], 0)
    else Apply(Run(s, events[..|events| - 1], asWritten), events[|events| - 1], asWritten)
  }

  /** The time each entry of `times` follows, `start` for the first. */
  function Previous(start: int, times: seq<int>, i: nat): int
    requires i < |times|
  {
    if i == 0 then start else times[i - 1]
  }

  /** Consecutive entries of `times`, starting from `start`, lie strictly
      more than `gap` apart. */
  predicate Spaced(start: int, times: seq<int>, gap: int) {
    forall i :: 0 <= i < |times| ==> times[i] - Previous(start, times, i) > gap
  }

  /** The times at which batches were sent. */
  function SendTimes(sends: seq<Send>): seq<int> {
    seq(|sends|, i requires 0 <= i < |sends| => sends[i].time)
  }

  /** What one event does to the sends, the clears and the two clocks. */
  lemma ApplyClocks(tr: Trace, e: Event, asWritten: bool)
    ensures var t := Apply(tr, e, asWritten);
      t.sends == tr.sends ==> t.state.lastSentTime == tr.state.lastSentTime
    ensures var t := Apply(tr, e, asWritten);
      t.sends != tr.sends ==>
        && e.Motion? && |t.sends| == |tr.sends| + 1 && t.sends[..|tr.sends|] == tr.sends
        && t.sends[|tr.sends|].time == e.now == t.state.lastSentTime
        && e.now - tr.state.lastSentTime > FlushIntervalMs
    ensures var t := Apply(tr, e, asWritten);
      t.clears == tr.clears ==> t.state.lastClearTime == tr.state.lastClearTime
    ensures var t := Apply(tr, e, asWritten);
      t.clears != tr.clears ==>
        && e.Motion? && t.clears == tr.clears + [e.now] && t.state.lastClearTime == e.now
        && e.now - tr.state.lastClearTime > ClearIntervalMs
  {
  }

  /** Appending a time that lies more than `gap` after the last one keeps
      a sequence spaced. */
  lemma SpacedSnoc(start: int, times: seq<int>, t: int, gap: int)
    requires Spaced(start, times, gap)
    requires t - (if |times| == 0 then start else times[|times| - 1]) > gap
    ensures Spaced(start, times + [t], gap)
  {
    var ts := times + [t];
    forall i | 0 <= i < |ts|
      ensures ts[i] - Previous(start, ts, i) > gap
    {
      if i < |times| {
        assert Previous(start, ts, i) == Previous(start, times, i);
      }
    }
  }

  /** The send clock holds the time of the latest send (or `start` before
      any), and the sends so far lie more than `FlushIntervalMs` apart. */
  predicate SendClock(start: int, tr: Trace) {
    && (|tr.sends| == 0 ==> tr.state.lastSentTime == start)
    && (|tr.sends| > 0 ==> tr.state.lastSentTime == tr.sends[|tr.sends| - 1].time)
    && Spaced(start, SendTimes(tr.sends), FlushIntervalMs)
  }

  /** A trace that either keeps its sends and send clock, or adds one
      send more than `FlushIntervalMs` after the clock and moves the clock
      to it, keeps `SendClock`. */
  lemma SendClockAdvance(start: int, tr: Trace, t: Trace)
    requires SendClock(start, tr)
    requires t.sends == tr.sends ==> t.state.lastSentTime == tr.state.lastSentTime
    requires t.sends != tr.sends ==>
      && |t.sends| == |tr.sends| + 1 && t.sends[..|tr.sends|] == tr.sends
      && t.sends[|tr.sends|].time == t.state.lastSentTime
      && t.state.lastSentTime - tr.state.lastSentTime > FlushIntervalMs
    ensures SendClock(start, t)
  {
    if t.sends != tr.sends {
      var last := t.sends[|tr.sends|];
      assert t.sends == tr.sends + [last];
      assert SendTimes(t.sends) == SendTimes(tr.sends) + [last.time];
      SpacedSnoc(start, SendTimes(tr.sends), last.time, FlushIntervalMs);
    }
  }

  /** The last event of a run preserves `SendClock`. */
  lemma SendStep(s: State, events: seq<Event>, asWritten: bool)
    requires |events| > 0
    requires SendClock(s.lastSentTime, Run(s, events[..|events| - 1], asWritten))
    ensures SendClock(s.lastSentTime, Run(s, events, asWritten))
  {
    var tr := Run(s, events[..|events| - 1], asWritten);
    ApplyClocks(tr, events[|events| - 1], asWritten);
    SendClockAdvance(s.lastSentTime, tr, Run(s, events, asWritten));
  }

  /** In every run the send clock holds the time of the latest send (or
      the starting value before any), and batches are sent strictly more
      than `FlushIntervalMs` apart, whatever the clock does in between. */
  lemma {:induction false} SendsSpaced(s: State, events: seq<Event>, asWritten: bool)
    ensures var tr := Run(s, events, asWritten);
      && (|tr.sends| == 0 ==> tr.state.lastSentTime == s.lastSentTime)
      && (|tr.sends| > 0 ==> tr.state.lastSentTime == tr.sends[|tr.sends| - 1].time)
      && Spaced(s.lastSentTime, SendTimes(tr.sends), FlushIntervalMs)
  {
    if |events| > 0 {
      var init := events[..|events| - 1];
      SendsSpaced(s, init, asWritten);
      SendStep(s, events, asWritten);
    }
  }

  /** The clear clock holds the time of the latest clear (or `start`
      before any), and the clears so far lie more than `ClearIntervalMs`
      apart. */
  predicate ClearClock(start: int, tr: Trace) {
    && (|tr.clears| == 0 ==> tr.state.lastClearTime == start)
    && (|tr.clears| > 0 ==> tr.state.lastClearTime == tr.clears[|tr.clears| - 1])
    && Spaced(start, tr.clears, ClearIntervalMs)
  }

  /** A trace that either keeps its clears and clear clock, or adds one
      clear more than `ClearIntervalMs` after the clock and moves the clock
      to it, keeps `ClearClock`. */
  lemma ClearClockAdvance(start: int, tr: Trace, t: Trace)
    requires ClearClock(start, tr)
    requires t.clears == tr.clears ==> t.state.lastClearTime == tr.state.lastClearTime
    requires t.clears != tr.clears ==>
      && t.clears == tr.clears + [t.state.lastClearTime]
      && t.state.lastClearTime - tr.state.lastClearTime > ClearIntervalMs
    ensures ClearClock(start, t)
  {
    if t.clears != tr.clears {
      SpacedSnoc(start, tr.clears, t.state.lastClearTime, ClearIntervalMs);
    }
  }

  /** The last event of a run preserves `ClearClock`. */
  lemma ClearStep(s: State, events: seq<Event>, asWritten: bool)
    requires |events| > 0
    requires ClearClock(s.lastClearTime, Run(s, events[..|events| - 1], asWritten))
    ensures ClearClock(s.lastClearTime, Run(s, events, asWritten))
  {
    var tr := Run(s, events[..|events| - 1], asWritten);
    ApplyClocks(tr, events[|events| - 1], asWritten);
    ClearClockAdvance(s.lastClearTime, tr, Run(s, events, asWritten));
  }

  /** In every run the clear clock holds the time of the latest clear, and
      the buffer is cleared strictly more than `ClearIntervalMs` apart. */
  lemma {:induction false} ClearsSpaced(s: State, events: seq<Event>, asWritten: bool)
    ensures var tr := Run(s, events, asWritten);
      && (|tr.clears| == 0 ==> tr.state.lastClearTime == s.lastClearTime)
      && (|tr.clears| > 0 ==> tr.state.lastClearTime == tr.clears[|tr.clears| - 1])
      && Spaced(s.lastClearTime, tr.clears, ClearIntervalMs)
  {
    if |events| > 0 {
      var init := events[..|events| - 1];
      ClearsSpaced(s, init, asWritten);
      ClearStep(s, events, asWritten);
    }
  }

  /** From `tr` to `t` nothing was recorded: the history, the sends, the
      clears, the buffer and the clear mark are all unchanged. */
  predicate Unrecorded(tr: Trace, t: Trace) {
    && t.history == tr.history && t.sends == tr.sends && t.clears == tr.clears
    && t.state.buffer == tr.state.buffer && t.clearMark == tr.clearMark
  }

  /** From `tr` to `t` the sample `x` was recorded: it joins the history;
      it joins the buffer, or the buffer is cleared and the mark moves past
      it; and a send, if any, carries the old buffer followed by `x`. */
  predicate Records(tr: Trace, t: Trace, x: Sample) {
    && t.history == tr.history + [x]
    && (t.clears == tr.clears ==> t.state.buffer == tr.state.buffer + [x] && t.clearMark == tr.clearMark)
    && (t.clears != tr.clears ==> |t.clears| > 0 && t.state.buffer == [] && t.clearMark == |t.history|)
    && (t.sends != tr.sends ==>
          && |t.sends| == |tr.sends| + 1 && t.sends[..|tr.sends|] == tr.sends
          && t.sends[|tr.sends|].batch == tr.state.buffer + [x]
          && t.sends[|tr.sends|].seen == |t.history|
          && t.sends[|tr.sends|].from == (if |tr.clears| == 0 then None else Some(tr.clearMark)))
  }

  /** What one event does to the history, the buffer, the clear mark and
      the sends: a recorded motion event records its sample, and every
      other event records nothing. */
  lemma ApplyRecords(tr: Trace, e: Event, asWritten: bool)
    ensures !Recorded(tr.state, e) ==> Unrecorded(tr, Apply(tr, e, asWritten))
    ensures Recorded(tr.state, e) ==>
      Records(tr, Apply(tr, e, asWritten), MakeSample(e.stamp, e.reading.value, e.location))
  {
  }

  /** The buffer holds exactly the samples recorded since the latest
      clear, preceded by the starting buffer `start` before any clear. */
  predicate BufferExact(start: seq<Sample>, tr: Trace) {
    && (|tr.clears| == 0 ==> tr.state.buffer == start + tr.history)
    && (|tr.clears| > 0 ==> tr.clearMark <= |tr.history| && tr.state.buffer == tr.history[tr.clearMark..])
  }

  /** Recording one sample preserves `BufferExact`. */
  lemma BufferAdvance(start: seq<Sample>, tr: Trace, t: Trace, x: Sample)
    requires BufferExact(start, tr)
    requires Records(tr, t, x)
    ensures BufferExact(start, t)
  {
    if t.clears == tr.clears && |tr.clears| > 0 {
      assert t.history[tr.clearMark..] == tr.history[tr.clearMark..] + [x];
    }
  }

  /** The last event of a run preserves `BufferExact`. */
  lemma BufferStep(s: State, events: seq<Event>, asWritten: bool)
    requires |events| > 0
    requires BufferExact(s.buffer, Run(s, events[..|events| - 1], asWritten))
    ensures BufferExact(s.buffer, Run(s, events, asWritten))
  {
    var tr := Run(s, events[..|events| - 1], asWritten);
    var e := events[|events| - 1];
    ApplyRecords(tr, e, asWritten);
    if Recorded(tr.state, e) {
      BufferAdvance(s.buffer, tr, Run(s, events, asWritten), MakeSample(e.stamp, e.reading.value, e.location));
    }
  }

  /** In every run the buffer holds exactly the starting buffer followed
      by every sample recorded, until the first clear, and from then on
      exactly the samples recorded since the latest clear: nothing is lost
      or reordered between clears, and a send removes nothing. */
  lemma {:induction false} BufferSinceClear(s: State, events: seq<Event>, asWritten: bool)
    ensures var tr := Run(s, events, asWritten);
      && (|tr.clears| == 0 ==> tr.state.buffer == s.buffer + tr.history)
      && (|tr.clears| > 0 ==> tr.clearMark <= |tr.history| && tr.state.buffer == tr.history[tr.clearMark..])
  {
    if |events| > 0 {
      var init := events[..|events| - 1];
      BufferSinceClear(s, init, asWritten);
      BufferStep(s, events, asWritten);
    }
  }

  /** Every batch sent so far is non-empty and is exactly the samples
      recorded since the latest clear before it, up to its own sample. */
  predicate BatchesExact(start: seq<Sample>, tr: Trace) {
    forall i :: 0 <= i < |tr.sends| ==>
      && tr.sends[i].seen <= |tr.history|
      && |tr.sends[i].batch| > 0
      && (tr.sends[i].from.None? ==> tr.sends[i].batch == start + tr.history[..tr.sends[i].seen])
      && (tr.sends[i].from.Some? ==>
            && tr.sends[i].from.value < tr.sends[i].seen
            && tr.sends[i].batch == tr.history[tr.sends[i].from.value..tr.sends[i].seen])
  }

  /** Recording one sample preserves `BatchesExact`, given
      `BufferExact`. */
  lemma BatchAdvance(start: seq<Sample>, tr: Trace, t: Trace, x: Sample)
    requires BufferExact(start, tr)
    requires BatchesExact(start, tr)
    requires Records(tr, t, x)
    ensures BatchesExact(start, t)
  {
    forall i | 0 <= i < |tr.sends|
      ensures t.sends[i] == tr.sends[i]
      ensures t.history[..tr.sends[i].seen] == tr.history[..tr.sends[i].seen]
      ensures tr.sends[i].from.Some? ==>
        t.history[tr.sends[i].from.value..tr.sends[i].seen] == tr.history[tr.sends[i].from.value..tr.sends[i].seen]
    {
      if t.sends != tr.sends {
        assert t.sends[i] == t.sends[..|tr.sends|][i];
      }
    }
    if t.sends != tr.sends {
      var n := |t.history|;
      assert t.history[..n] == t.history;
      if |tr.clears| > 0 {
        assert t.history[tr.clearMark..n] == tr.history[tr.clearMark..] + [x];
      }
    }
  }

  /** The last event of a run preserves `BatchesExact`, given
      `BufferExact` before it. */
  lemma BatchStep(s: State, events: seq<Event>, asWritten: bool)
    requires |events| > 0
    requires BufferExact(s.buffer, Run(s, events[..|events| - 1], asWritten))
    requires BatchesExact(s.buffer, Run(s, events[..|events| - 1], asWritten))
    ensures BatchesExact(s.buffer, Run(s, events, asWritten))
  {
    var tr := Run(s, events[..|events| - 1], asWritten);
    var e := events[|events| - 1];
    ApplyRecords(tr, e, asWritten);
    if Recorded(tr.state, e) {
      BatchAdvance(s.buffer, tr, Run(s, events, asWritten), MakeSample(e.stamp, e.reading.value, e.location));
    }
  }

  /** In every run each batch sent is non-empty and is exactly the samples
      recorded since the latest clear before it (the starting buffer and
      everything recorded, before any clear), up to and including the
      sample of the event that sent it. */
  lemma {:induction false} BatchesSinceClear(s: State, events: seq<Event>, asWritten: bool)
    ensures var tr := Run(s, events, asWritten);
      forall i :: 0 <= i < |tr.sends| ==>
        && tr.sends[i].seen <= |tr.history|
        && |tr.sends[i].batch| > 0
        && (tr.sends[i].from.None? ==> tr.sends[i].batch == s.buffer + tr.history[..tr.sends[i].seen])
        && (tr.sends[i].from.Some? ==>
              && tr.sends[i].from.value < tr.sends[i].seen
              && tr.sends[i].batch == tr.history[tr.sends[i].from.value..tr.sends[i].seen])
  {
    if |events| > 0 {
      var init := events[..|events| - 1];
      BatchesSinceClear(s, init, asWritten);
      BufferSinceClear(s, init, asWritten);
      BatchStep(s, events, asWritten);
    }
  }

  /** A run that starts consistent stays consistent when prompts are
      answered as intended: the handler is never registered while
      collection is off, however presses and answers interleave. */
  lemma {:induction false} RunConsistent(s: State, events: seq<Event>)
    requires Consistent(s)
    ensures Consistent(Run(s, events, false).state)
  {
    if |events| > 0 {
      var init := events[..|events| - 1];
      RunConsistent(s, init);
      var e := events[|events| - 1];
      var st := Run(s, init, false).state;
      match e
      case Press(p) => ConsistentPreserved(st, p, Granted, 0, "", None, None);
      case Answered(a) => ConsistentPreserved(st, NoPrompt, a, 0, "", None, None);
      case Motion(now, stamp, reading, location) => ConsistentPreserved(st, NoPrompt, Granted, now, stamp, reading, location);
    }
  }

  /** Three motion events within the first 500 ms after loading at time 0
      leave three samples and send nothing; a fourth at 1001 ms sends all
      four, and the buffer keeps them because the clear interval has not
      passed. */
  lemma FirstSendScenario(a: Acceleration, asWritten: bool)
    ensures
      var s0 := Toggle(Init(0), NoPrompt);
      var tr3 := Run(s0, [Motion(100, "t1", Some(a), None), Motion(300, "t2", Some(a), None),
                          Motion(500, "t3", Some(a), None)], asWritten);
      var tr4 := Run(s0, [Motion(100, "t1", Some(a), None), Motion(300, "t2", Some(a), None),
                          Motion(500, "t3", Some(a), None), Motion(1001, "t4", Some(a), None)], asWritten);
      && |tr3.state.buffer| == 3 && tr3.sends == []
      && |tr4.sends| == 1 && |tr4.sends[0].batch| == 4
      && tr4.state.buffer == tr4.sends[0].batch
      && tr4.state.lastSentTime == 1001
  {
    var s0 := Toggle(Init(0), NoPrompt);
    var e1, e2, e3, e4 := Motion(100, "t1", Some(a), None), Motion(300, "t2", Some(a), None),
                          Motion(500, "t3", Some(a), None), Motion(1001, "t4", Some(a), None);
    var evs := [e1, e2, e3, e4];
    assert evs[..3] == [e1, e2, e3];
    assert evs[..3][..2] == [e1, e2];
    assert evs[..3][..2][..1] == [e1];
    assert evs[..3][..2][..1][..0] == [];
    var t0 := Run(s0, [], asWritten);
    var t1 := Apply(t0, e1, asWritten);
    assert Run(s0, [e1], asWritten) == t1;
    assert |t1.state.buffer| == 1 && t1.sends == [];
    var t2 := Apply(t1, e2, asWritten);
    assert Run(s0, [e1, e2], asWritten) == t2;
    assert |t2.state.buffer| == 2 && t2.sends == [];
    var t3 := Apply(t2, e3, asWritten);
    assert Run(s0, [e1, e2, e3], asWritten) == t3;
    assert |t3.state.buffer| == 3 && t3.sends == [];
    var t4 := Apply(t3, e4, asWritten);
    assert Run(s0, evs, asWritten) == t4;
    assert |t4.sends| == 1 && t4.sends[0].batch == t4.state.buffer;
  }
}

=== FILE: ui_logger.dfy ===
/** The on-screen log of frontend/ui-logger.js: a bounded first-in first-out
    list of coloured text entries, newest last, holding at most fifty. */
module UiLogger {
  import opened JsValues

  /** The most entries the log container keeps. */
  const MaxEntries: nat := 50

  /** One line of the log: its text and its CSS colour. */
  datatype Entry = Entry(text: string, color: string)

  /** The `type` argument after JavaScript's default parameter is applied. */
  function EffectiveKind(kind: Option<string>): (k: string)
    ensures kind.None? ==> k == "info"
    ensures kind.Some? ==> k == kind.value
  {
    match kind
    case None => "info"
    case Some(k) => k
  }

  /** Colour of an entry of the given kind. */
  function KindColor(kind: string): (color: string)
    ensures color == "red" <==> kind == "error"
    ensures color == "yellow" <==> kind == "warn"
    ensures color == "white" <==> kind != "error" && kind != "warn"
  {
    if kind == "error" then "red"
    else if kind == "warn" then "yellow"
    else "white"
  }

  /** The entry written for `message`; `time` is the opaque locale time string. */
  function MakeEntry(message: string, kind: Option<string>, time: string): Entry {
    Entry("[" + time + "] " + message, KindColor(EffectiveKind(kind)))
  }

  /** Reference definition of the cap: the newest `MaxEntries` items. */
  function Newest<T>(s: seq<T>): seq<T> {
    if |s| <= MaxEntries then s else s[|s| - MaxEntries..]
  }

  /** The append-then-trim loop: appends `entry` and removes the first child
      while more than `MaxEntries` remain. */
  method AppendAndTrim(children: seq<Entry>, entry: Entry) returns (kept: seq<Entry>)
    ensures kept == Newest(children + [entry])
    ensures |kept| <= MaxEntries
    ensures |kept| > 0 && kept[|kept| - 1] == entry
    ensures IsSuffix(kept, children + [entry])
    ensures |children| < MaxEntries ==> kept == children + [entry]
  {
    var all := children + [entry];
    kept := all;
    ghost var dropped := 0;
    while |kept| > MaxEntries
      invariant 0 <= dropped <= |all|
      invariant kept == all[dropped..]
      invariant dropped > 0 ==> |kept| >= MaxEntries
    {
      kept := kept[1..];
      dropped := dropped + 1;
    }
  }

  /** `logToUI`: `None` is a page without the log container, which is left
      as it is; otherwise the new entry is appended and the oldest entries
      are dropped until at most `MaxEntries` remain. */
  function LogToUI(log: Option<seq<Entry>>, message: string, kind: Option<string>, time: string): (r: Option<seq<Entry>>)
    ensures log.None? ==> r == None
    ensures log.Some? ==> r.Some?
    ensures log.Some? ==> 0 < |r.value| <= MaxEntries
    ensures log.Some? ==> r.value[|r.value| - 1] == MakeEntry(message, kind, time)
    ensures log.Some? ==> IsSuffix(r.value, log.value + [MakeEntry(message, kind, time)])
    ensures log.Some? && |log.value| < MaxEntries ==> r.value == log.value + [MakeEntry(message, kind, time)]
    ensures log.Some? && |log.value| >= MaxEntries ==> |r.value| == MaxEntries
  {
    match log
    case None => None
    case Some(children) => Some(Newest(children + [MakeEntry(message, kind, time)]))
  }

  /** One call of `logToUI`. */
  datatype LogCall = LogCall(message: string, kind: Option<string>, time: string)

  /** The entries a sequence of calls writes, in call order. */
  function EntriesOf(calls: seq<LogCall>): seq<Entry> {
    if |calls| == 0 then []
    else EntriesOf(calls[..|calls| - 1])
         + [MakeEntry(calls[|calls| - 1].message, calls[|calls| - 1].kind, calls[|calls| - 1].time)]
  }

  /** The log after a sequence of calls, applied one at a time. */
  function LogAll(log: Option<seq<Entry>>, calls: seq<LogCall>): Option<seq<Entry>> {
    if |calls| == 0 then log
    else
      var last := calls[|calls| - 1];
      LogToUI(LogAll(log, calls[..|calls| - 1]), last.message, last.kind, last.time)
  }

  /** Trimming twice is trimming once: keeping the newest of the newest
      plus one more item keeps the newest of everything plus that item. */
  lemma NewestAppend<T>(s: seq<T>, x: T)
    ensures Newest(Newest(s) + [x]) == Newest(s + [x])
  {
    if |s| > MaxEntries {
      var t := s[|s| - MaxEntries..];
      assert (t + [x])[1..] == (s + [x])[|s + [x]| - MaxEntries..];
    }
  }

  /** Whatever the calls, the log ends up holding exactly the newest fifty
      of all entries ever written to it, starting from a log within the cap. */
  lemma {:induction false} LogAllKeepsNewest(log: seq<Entry>, calls: seq<LogCall>)
    requires |log| <= MaxEntries
    ensures LogAll(Some(log), calls) == Some(Newest(log + EntriesOf(calls)))
  {
    if |calls| == 0 {
      assert log + EntriesOf(calls) == log;
    } else {
      var init := calls[..|calls| - 1];
      var last := calls[|calls| - 1];
      var e := MakeEntry(last.message, last.kind, last.time);
      LogAllKeepsNewest(log, init);
      NewestAppend(log + EntriesOf(init), e);
      assert log + EntriesOf(calls) == (log + EntriesOf(init)) + [e];
    }
  }

  /** Without a log container no number of calls changes anything. */
  lemma {:induction false} LogAllWithoutContainer(calls: seq<LogCall>)
    ensures LogAll(None, calls) == None
  {
    if |calls| > 0 {
      LogAllWithoutContainer(calls[..|calls| - 1]);
    }
  }
}
